=== FILE: README.md ===
# Chat bot command core, modelled in Dafny

This project models the decision logic of a Discord bot written in
JavaScript (`bot.js`). The bot answers slash commands in two groups, `fun`
and `info`. It relays media through a conversion service (cobalt) and
falls back to a file host (Catbox) for files over 8 MiB. It forwards
prompts to a local text-generation service for an allow-list of users.
An owner-only `$sync` message pushes the command declaration to the
platform.

Each handler is a pure function. Its inputs are the interaction's options
and a `World` value holding the outcome of every call the handler awaits:
each platform reply or edit passes or throws, and each HTTP call answers
or throws. Its output is the sequence of effects the handler issues:
`Defer`, `Reply`, `Edit` (attachments travel inside the message),
`Request` (an HTTP call) and `RegisterCommands`.

Modules, leaf first:

- `Wrappers`: `Option`, `Result`, `Outcome`.
- `Text`: the string operations the bot uses. These are JavaScript `trim`
  (over the full ECMAScript whitespace set), `split(/ +/)`, ASCII
  `toLowerCase`, UTF-16 `length` and decimal rendering, each with its
  partner: idempotence, content preservation, or a parse-back round trip.
- `Schema`: the `commands` declaration and the (group, subcommand) pairs it
  admits.
- `Services`, `Effects`, `Interactions`: the boundary datatypes.
- `Catbox`: the upload-response classifier.
- `Cobalt`: the media relay.
- `Ai`, `Fun`, `Info`: the other handlers.
- `Router`: the two-level dispatch.
- `Uptime`: `formatUptime`.
- `Sync`: the `$sync` parser and owner gate.

Behaviours of the code that are easy to misread; the model follows the
code:

- A conversion error whose body is a JSON object is reported as
  `Cobalt API error: [object Object]`. The body's text never reaches the
  user, because the template literal coerces the object to a string.
- A conversion error whose body is falsy (`0`, `null`, `false`, the empty
  string) is reported with the error's own message instead of the body.
- A 413 from the file host does not end in a message of its own. The
  upload function returns the text `❌ File too large for Catbox upload.` as
  if it were a link. The handler then shows
  `🎬 File uploaded successfully: ❌ File too large for Catbox upload.`
- The requested quality is always `720`. The `video_quality` option is
  declared but never read.
- A non-2xx upload answer makes the HTTP client throw, and the failure
  carries the client's message, not the status and body. Status and body
  appear only for a 2xx that is not a 200 with a string body.
- Failures are plain messages. The stage shows only as a prefix:
  `Cobalt API error: `, `Download error: ` or `Failed to upload file: `.
  A failed platform call adds no prefix.

## Model

| member | source | states |
|---|---|---|
| Schema.CommandsDeclareSixPairs | bot.js:19-136 | The declaration admits exactly six (group, subcommand) pairs, in source order: four under `fun`, two under `info`. |
| Schema.CommandsWellFormed | bot.js:19-136 | Group names are unique, subcommand names are unique within each group, and no pair is declared twice. |
| Schema.DeclaredPairsMembership | bot.js:19-136 | A pair is declared exactly when a command of that name lists a subcommand option of that name. |
| Router.Route | bot.js:141-270 | A handler is chosen only for a present group and subcommand, and it is the handler of that pair; every pair some handler owns is routed. |
| Router.RouteAgreesWithSchema | bot.js:141-270 | The nested switch selects a handler exactly for the declared pairs, and the handler it picks belongs to that pair. |
| Router.RouteReachesEveryHandler | bot.js:146-250 | Every handler is reached through its own pair. |
| Router.Invoke | bot.js:146-265 | Every handler but `say` issues at least one effect once invoked. `say` issues none only when its content is longer than 4096 UTF-16 code units. |
| Router.Dispatch | bot.js:138-158 | Effects occur only for a chat-input interaction with a declared pair, and for such an interaction they are that pair's handler's effects. Every declared pair except `say` is sure to produce an effect. A missing group or subcommand, an unknown group, or an unknown subcommand does nothing. |
| Router.LongSayIsDropped | bot.js:250-265 | A `say` with content over 4096 UTF-16 code units is a declared pair that issues no effect: the error escapes the listener. |
| Info.BotInfo | bot.js:162-197 | `bot-info` sends one public reply carrying the information embed. |
| Info.Ping | bot.js:199-217 | `ping` sends a public "pinging" reply, then edits it to the latency embed only if that reply went out. |
| Fun.Say | bot.js:250-265 | `say` issues no effect (the error escapes the listener) exactly when its content is present and longer than 4096 UTF-16 code units, because the embed builder throws before the reply. Otherwise it sends one reply: an ephemeral warning when there is no content, and a public embed carrying the content verbatim when there is. |
| Fun.BubbleAttempt | bot.js:228-239 | The listing is fetched first, and the block finishes without throwing only when the listing succeeded and is non-empty. |
| Fun.SpeechBubble | bot.js:226-240 | The defer comes first, and a failed defer ends the handler. Any GIF fetched is one of the listed URLs. |
| Fun.BubbleFailureIsReported | bot.js:228-239 | After a successful defer, the handler ends in the fixed error edit exactly when the listing fails or is empty, or the download or delivery fails. Otherwise the GIF at the drawn index is fetched and attached as `speechbubble.gif`. |
| Ai.AnswerText | bot.js:297 | The shown answer is the service's output when that is non-empty, and the default text otherwise. It is never empty. |
| Ai.Present | bot.js:299-314 | The answer goes in an embed exactly when it is at most 4096 UTF-16 code units long. Otherwise it is attached as UTF-8 `response.txt` with the fixed notice. |
| Ai.Handle | bot.js:272-319 | The prompt check comes before the allow-list check. Each failing check gives its ephemeral notice with no defer and no call. Any defer or call implies a prompt and an allowed user, and the only call is the generation request for that prompt. Conversely, with a prompt and an allowed user the first effect is the public defer, and once the defer succeeds the second is the generation request. |
| Ai.Attempt | bot.js:272-314 | The try-block throws exactly when one of its awaited steps fails, and it never issues the catch's error edit itself. |
| Ai.AnswerDelivery | bot.js:297-314 | For an allowed user whose call succeeds, the third effect is an embed with the answer when it fits and the `response.txt` attachment otherwise. The handler stops there exactly when that edit succeeds. |
| Ai.FailureEndsInOneErrorEdit | bot.js:272-319 | The fixed "unexpected error" edit ends the trace exactly when a step on the path taken fails. On a failed check that step is the ephemeral notice; otherwise it is the defer, the generation call (a timeout included) or the delivery edit. The edit appears nowhere else in the trace. |
| Ai.GenerationFailureIsReported | bot.js:284-318 | When the generation call fails for an allowed user with a prompt, the trace is the defer, the request and the fixed error edit. |
| Catbox.Classify | bot.js:321-343 | The upload succeeds exactly for a 200 with a string body (giving the trimmed body) or for a thrown 413 (giving the fixed too-large text). Every other outcome fails with a message prefixed `Failed to upload file: `, built from the unexpected response's status and body or from the client's message. |
| Catbox.TooLargeIsNotAFailureMessage | bot.js:337-341 | No upload failure message equals the too-large text. |
| Catbox.UnexpectedStatusIsRecoverable | bot.js:334 | The status of an unexpected response can be read back from its error message. |
| Services.Detail | bot.js:374-375 | The detail of a failed conversion is the error response's body when it is truthy, rendered as a template literal renders it. An empty string, `0`, `null`, `false` or a missing body gives the error's message instead. |
| Cobalt.AudioOnly | bot.js:348 | Audio-only mode is on exactly when the `audio` option is present and true. An absent option counts as false. |
| Cobalt.BuildRequest | bot.js:356-362 | The request carries the URL, `alwaysProxy` true, `filenameStyle` `basic` and `videoQuality` `720`. `downloadMode` is `audio` exactly when audio-only is requested, and `auto` otherwise. |
| Cobalt.Relay | bot.js:385-397 | Media over the inline limit is announced first and is the only case with an HTTP call, which uploads that file under its name to the file host. Media within the limit goes out as an attachment in the first edit. |
| Cobalt.Attempt | bot.js:345-397 | The try-block's only conversion request is its third effect, made only for a present URL, and it carries the request built from that URL and the audio option. |
| Cobalt.Handle | bot.js:345-406 | Without a URL, the first effect is the ephemeral warning, and there is no defer and no HTTP call. With a URL, the first effect is the public defer and the last is an edit. After a successful defer comes the "processing" edit; after that succeeds, the conversion request for the URL with the requested audio mode; after a successful conversion, the download of the URL it returned. |
| Cobalt.ConversionRequestShape | bot.js:347-362 | Every conversion request issued carries the given URL, the proxy flag, the basic filename style and quality 720. Its mode is `audio` exactly when `audio` is true. |
| Cobalt.ErrorReportRoundTrip | bot.js:401 | An error report holds its detail verbatim between the fixed line plus "\n```\n" and the closing "\n```". |
| Cobalt.FailureEndsInOneReport | bot.js:398-405 | An error report appears exactly when a step on the path taken fails. There is never more than one, and it is the last effect. |
| Cobalt.SmallMediaIsAttached | bot.js:386-397 | Media of at most 8 MiB is attached under the conversion's file name, and nothing is uploaded. The attachment edit is last exactly when it succeeds. |
| Cobalt.LargeMediaIsUploaded | bot.js:386-393 | Media over 8 MiB first gets the "uploading" edit. The upload of that buffer under the conversion's file name follows it directly. Whatever the upload returns, the too-large text included, is put into the success message. |
| Cobalt.LargeMediaIsNotAttached | bot.js:386-397 | Media over 8 MiB is never sent as an attachment, on any path. |
| Cobalt.ConversionFailureIsReported | bot.js:364-376 | A failed conversion ends with one report whose detail is `Cobalt API error: ` and the upstream detail. Nothing is downloaded. |
| Cobalt.ObjectErrorBodyIsOpaque | bot.js:373-375 | A JSON-object error body is reported as `[object Object]`. |
| Cobalt.FalsyErrorBodyReportsMessage | bot.js:373-375 | A conversion error with a falsy or missing body is reported as `Cobalt API error: ` followed by the error's message. |
| Cobalt.DownloadFailureIsReported | bot.js:378-384 | A failed download ends with one report whose detail is `Download error: ` and the client's message. |
| Cobalt.UploadFailureIsReported | bot.js:390-393 | A failed upload ends with one report whose detail is the host failure message, which starts with `Failed to upload file: `. |
| Uptime.ClockOf | bot.js:408-411 | The hours, minutes and seconds of u seconds satisfy h·3600 + m·60 + s = u, with m < 60 and s < 60. |
| Uptime.ClockOfUnique | bot.js:408-411 | That decomposition is the only one with minutes and seconds below 60. |
| Uptime.Format | bot.js:408-413 | The rendering reads back as the hours, minutes and seconds of the uptime. |
| Uptime.FormatRoundTrip | bot.js:408-413 | Parsing the rendering `{h}h {m}m {s}s` gives back u. |
| Uptime.FormatInjective | bot.js:408-413 | Different uptimes render differently. |
| Uptime.RealUptimeIsWholeSeconds | bot.js:408-411 | On a real uptime u ≥ 0, the source's floor and remainder arithmetic gives the fields of floor(u). For example, `Math.floor(u % 60) = floor(u) % 60`. |
| Sync.CommandWord | bot.js:418-421 | A command word exists exactly for content starting with `$`. It contains no space and no upper-case ASCII letter. |
| Sync.CommandWordIsLeadingWord | bot.js:420-421 | The command word is the lower-cased longest space-free prefix of the trimmed text after `$`. |
| Sync.CommandWordIgnoresArguments | bot.js:420-421 | `$` followed by a whitespace-free word, a space and anything else reads as that word in lower case. |
| Sync.Handle | bot.js:417-437 | Bot authors, unprefixed messages and other commands get nothing. A non-owner's `sync` gets exactly the denial reply. A registration happens only for a `sync` from the configured owner, and the owner gets the refresh. |
| Sync.Refresh | bot.js:427-435 | The acknowledgement comes first. Registration is attempted exactly when the acknowledgement went out, and it always carries the full declaration under the client id. The trace ends in the error reply exactly when the acknowledgement, the registration or the confirmation failed. Registration happens once, right after the acknowledgement, and a successful registration is followed by the confirmation edit. |
| Text.Trim | bot.js:420 | The result has no whitespace at either end, and it is a slice of the input whose removed prefix and suffix are all whitespace. |
| Text.TrimIdempotent | bot.js:420 | Trimming twice equals trimming once. |
| Text.SplitOnSpaces | bot.js:420 | The split is never empty, and no piece contains a space. |
| Text.SplitKeepsContent | bot.js:420 | The pieces concatenated give the input with its spaces removed. |
| Text.SplitOfTrimmedHasNoEmptyPiece | bot.js:420 | A non-empty input with no space at either end splits into non-empty pieces. |
| Text.ToLower | bot.js:421 | Length is kept, ASCII capitals map to their lower-case letters, and every other character is unchanged. |
| Text.ToLowerIdempotent | bot.js:421 | Lower-casing twice equals lower-casing once. |
| Text.Utf16Length | bot.js:299 | The UTF-16 length lies between the number of characters and twice that. |
| Text.Utf16LengthOfBasicPlane | bot.js:299 | The UTF-16 length equals the character count exactly when every character is in the Basic Multilingual Plane. |
| Text.Utf16LengthCountsAstral | bot.js:299 | The UTF-16 length is the character count plus the number of characters above U+FFFF. |
| Text.Utf16LengthAppend | bot.js:299 | UTF-16 length adds up over concatenation. |
| Text.NatToString | bot.js:412 | The rendering is non-empty, all digits, and has no leading zero. |
| Text.NatToStringRoundTrip | bot.js:412 | Reading a rendered number back gives the number. |

## Left out

- The Discord client, gateway, login and command transport are left out. `RegisterCommands` stands for the `rest.put` call.
- Embed colour, footer, thumbnail and timestamp are rendering only and are left out.
- Info.BotInfo: the embed's fields (memory, platform, versions, uptime, latency, user profile) are runtime values shown for display and are not modelled.
- Info.Ping: the two latency values in the pong embed come from timestamps and the socket; they are not modelled.
- HTTP transport is left out. This covers axios, FormData, headers, the generation service's API key and its 30-second timeout. Each call's outcome is an oracle field; a timeout is one more failure.
- Environment loading is left out. The owner id and client id are parameters, and a missing owner id (`None`) makes nobody the owner.
- `console` logging is left out. A failure of the Cobalt handler's final error edit is only logged, so the trace ends there.
- Fun.SpeechBubble: `Math.random()` is replaced by an oracle index taken modulo the listing's length.
- Text.ToLower: only ASCII letters are lower-cased. Other characters are kept, whereas JavaScript also lower-cases non-ASCII letters.
- Uptime.ClockOfReal uses exact real arithmetic. Floating-point rounding of `u / 3600` and `u / 60` is not modelled.
- Ai.AnswerText: an `output` field that is present but not a string (a number, an object) is not modelled. Only missing, empty and string outputs are.
- Cobalt.Handle: a conversion answer without `url` or `filename` is not modelled. A missing `url` is covered by the download's failure outcome.
- `getSubcommand()` throws when there is no subcommand. The model treats that like the missing-name check: no handler is reached, so the trace issues no effect and the error escapes the listener.
- An error that escapes a listener ends the model's trace there. The bot installs no `client.on('error')` or `unhandledRejection` handler, so under Node's defaults such a rejection ends the process; that exit and everything after it are not modelled.
- An `Edit` effect is the attempted `editReply` call. After a failed `reply` or `deferReply`, discord.js refuses that call locally (the interaction was never acknowledged) and it never reaches Discord; the model does not distinguish that refusal.
- Of the embed builder's validation, only the 4096-unit description limit is modelled. The other embeds the bot builds have fixed or bounded text.
- Concurrency between interactions is left out. Each handler is one sequential trace.

=== FILE: ai.dfy ===
/** The text-generation handler (bot.js `handleAICommand`): a prompt check,
  then an allow-list check, then one call to the local generation service;
  the answer is shown in an embed, or attached as `response.txt` when it is
  longer than an embed description may be.
*/
module Ai {
  import opened Wrappers
  import opened Text
  import opened Services
  import opened Effects
  import opened Interactions

  const PromptWarning := "⚠️ Please provide a prompt."
  const RestrictedNotice := "🚫 AI functionality is currently restricted."
  const DefaultOutput := "No response received from AI."
  const ResponseTitle := "💡 AI Response"
  const TooLongNotice := "📄 The response is too long to display. See the attached file."
  const UnexpectedError := "❌ An unexpected error occurred. Please try again later."
  const ResponseFileName := "response.txt"

  /** Longest answer, in UTF-16 code units, shown inline. */
  const EmbedLimit: nat := DescriptionLimit

  /** The user ids allowed to call the generation service. */
  const AllowedUsers: seq<string> := ["657350415511322647", "1051181672508444683", "952464937756786718"]

  /** The outcome of every call the handler awaits: the ephemeral notice
      (either one), the defer, the generation call (its `output` field, if
      any), and the final edit. */
  datatype World = World(
    notice: Outcome<string>,
    defer: Outcome<string>,
    generate: Result<Option<string>, string>,
    deliver: Outcome<string>)

  /** `response.data.output || 'No response received from AI.'` */
  function AnswerText(output: Option<string>): (m: string)
    ensures Truthy(output) ==> m == output.value
    ensures !Truthy(output) ==> m == DefaultOutput
    ensures m != ""
  {
    if Truthy(output) then output.value else DefaultOutput
  }

  /** How an answer is shown: inline up to 4096 UTF-16 code units, as an
      attached UTF-8 file beyond. */
  function Present(answer: string): (m: Message)
    ensures m.Embedded? <==> Utf16Length(answer) <= EmbedLimit
    ensures m.Embedded? ==> m.embed == Embed(Some(ResponseTitle), Some(answer))
    ensures m.WithFile? ==> m == WithFile(TooLongNotice, Attachment(ResponseFileName, Utf8(answer)))
  {
    if Utf16Length(answer) <= EmbedLimit then Embedded(Embed(Some(ResponseTitle), Some(answer)))
    else WithFile(TooLongNotice, Attachment(ResponseFileName, Utf8(answer)))
  }

  /** The handler's `try` block. */
  function Attempt(text: Option<string>, userId: string, w: World): (t: Run)
    ensures t.thrown.Some? <==> StepFails(text, userId, w)
    ensures forall i :: 0 <= i < |t.effects| ==> t.effects[i] != Edit(Plain(UnexpectedError))
  {
    if !Truthy(text) then Run([Reply(Plain(PromptWarning), true)], w.notice.Thrown())
    else if userId !in AllowedUsers then Run([Reply(Plain(RestrictedNotice), true)], w.notice.Thrown())
    else if w.defer.Fail? then Run([Defer(false)], Some(w.defer.error))
    else
      var asked := [Defer(false), Request(Generate(GenerateEndpoint, text.value))];
      match w.generate
      case Failure(message) => Run(asked, Some(message))
      case Success(output) => Run(asked + [Edit(Present(AnswerText(output)))], w.deliver.Thrown())
  }

  /** The whole handler. Whatever throws in the `try` ends in the fixed
      error edit; the error's own message is only logged. The prompt check
      comes first, then the allow-list, and the generation service is only
      called for an allowed user with a prompt. */
  function Handle(options: map<string, OptionValue>, userId: string, w: World): (r: seq<Effect>)
    ensures |r| >= 1
    ensures !Truthy(GetString(options, "text")) ==>
      r[0] == Reply(Plain(PromptWarning), true) && !Defers(r) && !Requests(r)
    ensures Truthy(GetString(options, "text")) && userId !in AllowedUsers ==>
      r[0] == Reply(Plain(RestrictedNotice), true) && !Defers(r) && !Requests(r)
    ensures Defers(r) || Requests(r) ==> Truthy(GetString(options, "text")) && userId in AllowedUsers
    ensures forall i :: 0 <= i < |r| && r[i].Request? ==>
      r[i].call == Generate(GenerateEndpoint, GetString(options, "text").value)
    ensures Truthy(GetString(options, "text")) && userId in AllowedUsers ==>
      && r[0] == Defer(false)
      && (w.defer.Pass? ==> |r| >= 2 && r[1] == Request(Generate(GenerateEndpoint, GetString(options, "text").value)))
  {
    var run := Attempt(GetString(options, "text"), userId, w);
    match run.thrown
    case Some(_) => run.effects + [Edit(Plain(UnexpectedError))]
    case None => run.effects
  }

  /** For an allowed user whose call succeeds, the answer (or the default
      text when it is empty or missing) is shown inline exactly when it is
      at most 4096 UTF-16 code units long, and as `response.txt` otherwise. */
  lemma AnswerDelivery(options: map<string, OptionValue>, userId: string, w: World)
    requires Truthy(GetString(options, "text")) && userId in AllowedUsers
    requires w.defer.Pass? && w.generate.Success?
    ensures var r := Handle(options, userId, w);
      var answer := AnswerText(w.generate.value);
      && |r| >= 3 && r[2].Edit?
      && (r[2].message.Embedded? <==> Utf16Length(answer) <= EmbedLimit)
      && (Utf16Length(answer) <= EmbedLimit ==> r[2].message.embed.description == Some(answer))
      && (Utf16Length(answer) > EmbedLimit ==> r[2].message.file == Attachment(ResponseFileName, Utf8(answer)))
      && (w.deliver.Pass? <==> |r| == 3)
  {
  }

  /** Some awaited call on the path the handler takes fails: the
      ephemeral notice when a check fails; otherwise the defer, the
      generation call (a timeout included) or the delivery edit. */
  predicate StepFails(text: Option<string>, userId: string, w: World) {
    if !Truthy(text) || userId !in AllowedUsers then w.notice.Fail?
    else w.defer.Fail? || w.generate.Failure? || w.deliver.Fail?
  }

  /** The `catch`: the fixed error edit ends the trace exactly when a step
      on the path failed, and it appears nowhere else. */
  lemma FailureEndsInOneErrorEdit(options: map<string, OptionValue>, userId: string, w: World)
    ensures var r := Handle(options, userId, w);
      && (r[|r| - 1] == Edit(Plain(UnexpectedError)) <==> StepFails(GetString(options, "text"), userId, w))
      && (forall i :: 0 <= i < |r| - 1 ==> r[i] != Edit(Plain(UnexpectedError)))
  {
    var text := GetString(options, "text");
    var run := Attempt(text, userId, w);
    assert forall i :: 0 <= i < |run.effects| ==> run.effects[i] != Edit(Plain(UnexpectedError));
    assert run.thrown.Some? <==> StepFails(text, userId, w);
  }

  /** A failed generation call, a timeout included, is reported by the
      fixed error edit right after the request; nothing is shown. */
  lemma GenerationFailureIsReported(options: map<string, OptionValue>, userId: string, w: World)
    requires Truthy(GetString(options, "text")) && userId in AllowedUsers
    requires w.defer.Pass? && w.generate.Failure?
    ensures Handle(options, userId, w) ==
      [Defer(false), Request(Generate(GenerateEndpoint, GetString(options, "text").value)), Edit(Plain(UnexpectedError))]
  {
  }
}

=== FILE: catbox.dfy ===
/** The fallback file host (bot.js `uploadFileToCatbox`): how the answer to
  the multipart upload becomes either the text handed back to the caller
  or an error thrown to it.
*/
module Catbox {
  import opened Wrappers
  import opened Text
  import opened Services

  /** The form field `reqtype` sent with every upload. */
  const RequestType := "fileupload"
  /** Returned, not thrown, when the host answers 413. */
  const TooLargeNotice := "❌ File too large for Catbox upload."
  const FailurePrefix := "Failed to upload file: "

  /** The message of the error thrown for a response that is not a 200 with
      a string body. */
  function UnexpectedResponse(status: nat, body: HttpBody): string {
    "Unexpected response: " + NatToString(status) + " - " + Render(body)
  }

  /** The host accepted the file: a 200 whose body is a string. */
  predicate Accepted(resp: UploadResponse) {
    resp.Responded? && resp.status == 200 && resp.body.TextBody?
  }

  /** The host refused the file as too large. */
  predicate RefusedAsTooLarge(resp: UploadResponse) {
    resp.Threw? && resp.errorStatus == Some(413)
  }

  /** What `uploadFileToCatbox` hands back (`Success`) or throws
      (`Failure`): the trimmed link, the fixed too-large text, or an error
      whose message starts with `Failed to upload file: `. */
  function Classify(resp: UploadResponse): (r: Result<string, string>)
    ensures r.Success? <==> Accepted(resp) || RefusedAsTooLarge(resp)
    ensures Accepted(resp) ==> r.value == Trim(resp.body.text)
    ensures RefusedAsTooLarge(resp) ==> r.value == TooLargeNotice
    ensures r.Failure? ==> HasPrefix(r.error, FailurePrefix)
    ensures resp.Responded? && r.Failure? ==>
      r.error == FailurePrefix + UnexpectedResponse(resp.status, resp.body)
    ensures resp.Threw? && r.Failure? ==> r.error == FailurePrefix + resp.message
  {
    match resp
    case Responded(status, body) =>
      if status == 200 && body.TextBody? then Success(Trim(body.text))
      else Failure(FailurePrefix + UnexpectedResponse(status, body))
    case Threw(errorStatus, message) =>
      if errorStatus == Some(413) then Success(TooLargeNotice)
      else Failure(FailurePrefix + message)
  }

  /** The too-large outcome is told apart from every generic failure: no
      failure message equals the too-large text. */
  lemma TooLargeIsNotAFailureMessage(resp: UploadResponse)
    ensures Classify(resp).Failure? ==> Classify(resp).error != TooLargeNotice
  {
    if Classify(resp).Failure? {
      var e := Classify(resp).error;
      assert e[0] == 'F';
      assert TooLargeNotice[0] == '❌';
    }
  }

  /** The status of an unexpected response can be read back from the
      failure message: the digits right after the fixed words. */
  lemma UnexpectedStatusIsRecoverable(status: nat, body: HttpBody)
    ensures var m := UnexpectedResponse(status, body);
            var digits := m[|"Unexpected response: "|..];
            var k := DigitSpan(digits);
            AllDigits(digits[..k]) && DecimalValue(digits[..k]) == status
  {
    var n := NatToString(status);
    var m := UnexpectedResponse(status, body);
    var digits := m[|"Unexpected response: "|..];
    var tail := " - " + Render(body);
    assert digits == n + tail;
    DigitSpanOfDigitsThen(n, tail);
    assert digits[..|n|] == n;
    NatToStringRoundTrip(status);
  }
}

=== FILE: cobalt.dfy ===
/** The media relay (bot.js `handleCobaltCommand`): validate the URL,
  acknowledge, ask the conversion service for the media, download it, and
  deliver it as an attachment when it fits the platform's 8 MiB limit or as
  a link from the fallback host otherwise. Everything inside the handler's
  `try` that throws ends in one fenced error edit.

  Each awaited call is an oracle field of `World`: the platform calls
  (reply, defer, edits) either pass or throw with a message, the service
  calls either answer or throw with the text the handler would log.
*/
module Cobalt {
  import opened Wrappers
  import opened Text
  import opened Services
  import opened Effects
  import opened Interactions
  import Catbox

  const NoUrlWarning := "⚠️ Please provide a valid URL."
  const ProcessingNotice := "🔄 Processing your request, please wait..."
  const UploadingNotice := "📤 File too large for Discord. Uploading to Catbox..."
  const OutputCaption := "🎬 Output:"
  const UploadedPrefix := "🎬 File uploaded successfully: "
  /** The mark that opens every error text. */
  const Cross := "❌"
  const ErrorLine := Cross + " An error occurred while processing your request."
  const FenceOpen := "\n```\n"
  const FenceClose := "\n```"
  const ConvertErrorPrefix := "Cobalt API error: "
  const DownloadErrorPrefix := "Download error: "

  /** 8 MiB. `byteLength / (1024 * 1024) > 8` divides by a power of two, so
      in floating point it is exactly `byteLength > InlineLimit`. */
  const InlineLimit: nat := 8 * 1024 * 1024

  /** `getBoolean('audio') || false`: an absent option counts as false. */
  function AudioOnly(options: map<string, OptionValue>): (b: bool)
    ensures b <==> GetBoolean(options, "audio") == Some(true)
  {
    GetBoolean(options, "audio").GetOr(false)
  }

  /** The conversion request. The quality is fixed at 720 whatever the
      `video_quality` option says: the handler never reads that option. */
  function BuildRequest(url: string, audioOnly: bool): (req: CobaltRequest)
    ensures req.url == url
    ensures req.alwaysProxy && req.filenameStyle == "basic" && req.videoQuality == "720"
    ensures req.downloadMode == "audio" <==> audioOnly
    ensures req.downloadMode == "audio" || req.downloadMode == "auto"
  {
    CobaltRequest(url, true, "basic", "720", if audioOnly then "audio" else "auto")
  }

  /** The final edit for a failure: the fixed line, then the detail inside a
      fenced block. */
  function ErrorReport(detail: string): string {
    ErrorLine + FenceOpen + detail + FenceClose
  }

  /** The detail inside a fenced error report, if `s` is one. */
  function ReportedDetail(s: string): Option<string> {
    var head := ErrorLine + FenceOpen;
    if |s| >= |head| + |FenceClose| && s[..|head|] == head && s[|s| - |FenceClose|..] == FenceClose
    then Some(s[|head|..|s| - |FenceClose|])
    else None
  }

  /** The detail of a report is recovered verbatim. */
  lemma ErrorReportRoundTrip(detail: string)
    ensures ReportedDetail(ErrorReport(detail)) == Some(detail)
  {
    var s := ErrorReport(detail);
    var head := ErrorLine + FenceOpen;
    assert s == head + detail + FenceClose;
    assert s[..|head|] == head;
    assert s[|s| - |FenceClose|..] == FenceClose;
    assert s[|head|..|s| - |FenceClose|] == detail;
  }

  predicate IsErrorReport(e: Effect) {
    e.Edit? && e.message.Plain? && ReportedDetail(e.message.content).Some?
  }

  /** The outcome of every call the handler awaits. */
  datatype World = World(
    warn: Outcome<string>,
    defer: Outcome<string>,
    processing: Outcome<string>,
    convert: Result<CobaltReply, ServiceError>,
    download: Result<Bytes, string>,
    announce: Outcome<string>,
    upload: UploadResponse,
    deliver: Outcome<string>)

  /** The size branch, once the media is downloaded: large media is
      announced and uploaded, small media is attached to the edit. */
  function Relay(reply: CobaltReply, file: Bytes, w: World): (t: Run)
    ensures |t.effects| >= 1
    ensures t.effects[0] == Edit(Plain(UploadingNotice)) <==> |file| > InlineLimit
    ensures |file| <= InlineLimit ==>
      t.effects[0] == Edit(WithFile(OutputCaption, Attachment(reply.filename, Raw(file))))
    ensures forall i :: 0 <= i < |t.effects| && t.effects[i].Request? ==>
      |file| > InlineLimit && t.effects[i].call == Upload(CatboxEndpoint, Catbox.RequestType, reply.filename, file)
  {
    if |file| > InlineLimit then
      var announced := [Edit(Plain(UploadingNotice))];
      if w.announce.Fail? then Run(announced, Some(w.announce.error))
      else
        var uploaded := announced + [Request(Upload(CatboxEndpoint, Catbox.RequestType, reply.filename, file))];
        match Catbox.Classify(w.upload)
        case Failure(e) => Run(uploaded, Some(e))
        case Success(link) => Run(uploaded + [Edit(Plain(UploadedPrefix + link))], w.deliver.Thrown())
    else
      Run([Edit(WithFile(OutputCaption, Attachment(reply.filename, Raw(file))))], w.deliver.Thrown())
  }

  /** The handler's `try` block. */
  function Attempt(options: map<string, OptionValue>, w: World): (a: Run)
    ensures forall i :: 0 <= i < |a.effects| && a.effects[i].Request? && a.effects[i].call.Convert? ==>
      i == 2 && Truthy(GetString(options, "url"))
      && a.effects[i].call.request == BuildRequest(GetString(options, "url").value, AudioOnly(options))
  {
    var url := GetString(options, "url");
    if !Truthy(url) then Run([Reply(Plain(NoUrlWarning), true)], w.warn.Thrown())
    else if w.defer.Fail? then Run([Defer(false)], Some(w.defer.error))
    else
      var acknowledged := [Defer(false), Edit(Plain(ProcessingNotice))];
      if w.processing.Fail? then Run(acknowledged, Some(w.processing.error))
      else
        var converting := acknowledged + [Request(Convert(CobaltEndpoint, BuildRequest(url.value, AudioOnly(options))))];
        match w.convert
        case Failure(e) => Run(converting, Some(ConvertErrorPrefix + Detail(e)))
        case Success(reply) =>
          var downloading := converting + [Request(Download(reply.url))];
          match w.download
          case Failure(message) => Run(downloading, Some(DownloadErrorPrefix + message))
          case Success(file) =>
            var tail := Relay(reply, file, w);
            Run(downloading + tail.effects, tail.thrown)
  }

  /** The whole handler: the `try` block, then the `catch`'s single error
      edit when something in it threw. A failure of that edit is only
      logged, so nothing follows it. */
  function Handle(options: map<string, OptionValue>, w: World): (r: seq<Effect>)
    ensures |r| >= 1
    ensures !Truthy(GetString(options, "url")) ==>
      r[0] == Reply(Plain(NoUrlWarning), true) && !Defers(r) && !Requests(r)
    ensures Truthy(GetString(options, "url")) ==> r[0] == Defer(false) && r[|r| - 1].Edit?
    ensures Truthy(GetString(options, "url")) && w.defer.Pass? ==>
      && |r| >= 2 && r[1] == Edit(Plain(ProcessingNotice))
      && (w.processing.Pass? ==>
            && |r| >= 3
            && r[2] == Request(Convert(CobaltEndpoint, BuildRequest(GetString(options, "url").value, AudioOnly(options))))
            && (w.convert.Success? ==> |r| >= 4 && r[3] == Request(Download(w.convert.value.url))))
  {
    var run := Attempt(options, w);
    match run.thrown
    case Some(message) => run.effects + [Edit(Plain(ErrorReport(message)))]
    case None => run.effects
  }

  /** Independent statement of when the `try` block throws: some awaited
      step on the path actually taken fails. */
  predicate StepFails(options: map<string, OptionValue>, w: World) {
    if !Truthy(GetString(options, "url")) then w.warn.Fail?
    else
      || w.defer.Fail? || w.processing.Fail? || w.convert.Failure? || w.download.Failure?
      || (if |w.download.value| > InlineLimit
          then w.announce.Fail? || Catbox.Classify(w.upload).Failure? || w.deliver.Fail?
          else w.deliver.Fail?)
  }

  /** No effect the `try` block issues looks like an error report. */
  lemma AttemptIssuesNoReport(options: map<string, OptionValue>, w: World)
    ensures forall i :: 0 <= i < |Attempt(options, w).effects| ==> !IsErrorReport(Attempt(options, w).effects[i])
  {
    var head := ErrorLine + FenceOpen;
    assert head[0] == '❌';
    assert |ProcessingNotice| < |head| && |UploadingNotice| < |head|;
    forall link: string
      ensures ReportedDetail(UploadedPrefix + link).None?
    {
      assert (UploadedPrefix + link)[0] == '🎬';
    }
  }

  /** The failure path: there is an error report exactly when a step fails,
      then it is the last effect and the only report; its detail names the
      stage that failed. */
  lemma FailureEndsInOneReport(options: map<string, OptionValue>, w: World)
    ensures var r := Handle(options, w);
      && ((exists i :: 0 <= i < |r| && IsErrorReport(r[i])) <==> StepFails(options, w))
      && (forall i :: 0 <= i < |r| && IsErrorReport(r[i]) ==> i == |r| - 1)
  {
    var run := Attempt(options, w);
    var r := Handle(options, w);
    AttemptIssuesNoReport(options, w);
    assert run.thrown.Some? <==> StepFails(options, w);
    if run.thrown.Some? {
      ErrorReportRoundTrip(run.thrown.value);
      assert IsErrorReport(r[|r| - 1]);
    }
    assert forall i :: 0 <= i < |run.effects| ==> r[i] == run.effects[i];
  }

  /** Every conversion request carries the given URL, the proxy flag, the
      basic filename style, quality 720, and the audio mode exactly when
      `audio` is true. */
  lemma ConversionRequestShape(options: map<string, OptionValue>, w: World)
    ensures var r := Handle(options, w);
      forall i :: 0 <= i < |r| && r[i].Request? && r[i].call.Convert? ==>
        var req := r[i].call.request;
        && Truthy(GetString(options, "url"))
        && req.url == GetString(options, "url").value
        && req.alwaysProxy && req.filenameStyle == "basic" && req.videoQuality == "720"
        && (req.downloadMode == "audio" <==> GetBoolean(options, "audio") == Some(true))
        && (req.downloadMode == "audio" || req.downloadMode == "auto")
  {
    var run := Attempt(options, w);
    var r := Handle(options, w);
    assert forall i :: 0 <= i < |run.effects| ==> r[i] == run.effects[i];
    assert |r| > |run.effects| ==> r[|r| - 1].Edit?;
  }

  /** Every step before the size branch succeeded. */
  predicate Downloaded(options: map<string, OptionValue>, w: World) {
    && Truthy(GetString(options, "url"))
    && w.defer.Pass? && w.processing.Pass?
    && w.convert.Success? && w.download.Success?
  }

  predicate UploadsAnything(r: seq<Effect>) {
    exists i :: 0 <= i < |r| && r[i].Request? && r[i].call.Upload?
  }

  /** Media of at most 8 MiB is attached to the final edit under the name
      the conversion service gave it, and nothing is uploaded. */
  lemma SmallMediaIsAttached(options: map<string, OptionValue>, w: World)
    requires Downloaded(options, w) && |w.download.value| <= InlineLimit
    ensures var r := Handle(options, w);
      var attached := Edit(WithFile(OutputCaption, Attachment(w.convert.value.filename, Raw(w.download.value))));
      && |r| >= 5 && r[4] == attached
      && !UploadsAnything(r)
      && (w.deliver.Pass? <==> r[|r| - 1] == attached)
  {
    var r := Handle(options, w);
    var attached := Edit(WithFile(OutputCaption, Attachment(w.convert.value.filename, Raw(w.download.value))));
    assert r[..5] == [Defer(false), Edit(Plain(ProcessingNotice)),
                      Request(Convert(CobaltEndpoint, BuildRequest(GetString(options, "url").value, AudioOnly(options)))),
                      Request(Download(w.convert.value.url)), attached];
    if w.deliver.Fail? {
      assert r[|r| - 1] == Edit(Plain(ErrorReport(w.deliver.error)));
    }
  }

  /** Media over 8 MiB: the "uploading" edit comes right before the upload
      of the buffer under the conversion's file name, and whatever the
      upload hands back, the too-large text included, is spliced into the
      success message. */
  lemma LargeMediaIsUploaded(options: map<string, OptionValue>, w: World)
    requires Downloaded(options, w) && |w.download.value| > InlineLimit
    ensures var r := Handle(options, w);
      && |r| >= 5 && r[4] == Edit(Plain(UploadingNotice))
      && (w.announce.Pass? ==>
            |r| >= 6 && r[5] == Request(Upload(CatboxEndpoint, Catbox.RequestType, w.convert.value.filename, w.download.value)))
      && (w.announce.Pass? && Catbox.Classify(w.upload).Success? ==>
            r[6] == Edit(Plain(UploadedPrefix + Catbox.Classify(w.upload).value)))
      && (w.announce.Pass? && Catbox.RefusedAsTooLarge(w.upload) ==>
            r[6] == Edit(Plain(UploadedPrefix + Catbox.TooLargeNotice)))
  {
    var r := Handle(options, w);
    var run := Attempt(options, w);
    assert run.effects == r[..|run.effects|];
    assert |run.effects| >= 5 && run.effects[4] == Edit(Plain(UploadingNotice));
  }

  /** Media over 8 MiB is never attached, not even by the error report. */
  lemma LargeMediaIsNotAttached(options: map<string, OptionValue>, w: World)
    requires Downloaded(options, w) && |w.download.value| > InlineLimit
    ensures var r := Handle(options, w);
      forall i :: 0 <= i < |r| ==> !(r[i].Edit? && r[i].message.WithFile?)
  {
    var tail := Relay(w.convert.value, w.download.value, w);
    assert forall i :: 0 <= i < |tail.effects| ==> !(tail.effects[i].Edit? && tail.effects[i].message.WithFile?);
  }

  /** A failed conversion ends the trace right after the request, with the
      upstream detail in the report; nothing is downloaded. */
  lemma ConversionFailureIsReported(options: map<string, OptionValue>, w: World)
    requires Truthy(GetString(options, "url")) && w.defer.Pass? && w.processing.Pass?
    requires w.convert.Failure?
    ensures var r := Handle(options, w);
      && |r| == 4 && r[2].Request? && r[2].call.Convert?
      && r[3] == Edit(Plain(ErrorReport(ConvertErrorPrefix + Detail(w.convert.error))))
      && ReportedDetail(r[3].message.content) == Some(ConvertErrorPrefix + Detail(w.convert.error))
  {
    ErrorReportRoundTrip(ConvertErrorPrefix + Detail(w.convert.error));
  }

  /** An error body that is a JSON object is reported as `[object Object]`:
      its fields never reach the user. */
  lemma ObjectErrorBodyIsOpaque(options: map<string, OptionValue>, w: World)
    requires Truthy(GetString(options, "url")) && w.defer.Pass? && w.processing.Pass?
    requires w.convert.Failure? && w.convert.error.data == Some(JsonObject)
    ensures Handle(options, w)[3] == Edit(Plain(ErrorReport(ConvertErrorPrefix + "[object Object]")))
  {
    assert Detail(w.convert.error) == "[object Object]";
  }

  /** An error response whose body is falsy (`0`, `null`, `false`, the
      empty string) or missing is reported with the error's own message. */
  lemma FalsyErrorBodyReportsMessage(options: map<string, OptionValue>, w: World)
    requires Truthy(GetString(options, "url")) && w.defer.Pass? && w.processing.Pass?
    requires w.convert.Failure?
    requires w.convert.error.data.None? || !TruthyBody(w.convert.error.data.value)
    ensures Handle(options, w)[3] == Edit(Plain(ErrorReport(ConvertErrorPrefix + w.convert.error.message)))
  {
    assert Detail(w.convert.error) == w.convert.error.message;
  }

  /** A failed download ends the trace right after it, reporting the
      client's message. */
  lemma DownloadFailureIsReported(options: map<string, OptionValue>, w: World)
    requires Truthy(GetString(options, "url")) && w.defer.Pass? && w.processing.Pass?
    requires w.convert.Success? && w.download.Failure?
    ensures var r := Handle(options, w);
      && |r| == 5 && r[3] == Request(Download(w.convert.value.url))
      && r[4] == Edit(Plain(ErrorReport(DownloadErrorPrefix + w.download.error)))
  {
  }

  /** A failed upload ends the trace right after it, with the host's
      failure message, which starts with `Failed to upload file: `. */
  lemma UploadFailureIsReported(options: map<string, OptionValue>, w: World)
    requires Downloaded(options, w) && |w.download.value| > InlineLimit
    requires w.announce.Pass? && Catbox.Classify(w.upload).Failure?
    ensures var r := Handle(options, w);
      && |r| == 7 && r[5].Request? && r[5].call.Upload?
      && r[6] == Edit(Plain(ErrorReport(Catbox.Classify(w.upload).error)))
      && HasPrefix(ReportedDetail(r[6].message.content).value, Catbox.FailurePrefix)
  {
    ErrorReportRoundTrip(Catbox.Classify(w.upload).error);
  }
}

=== FILE: effects.dfy ===
/** What a handler does to the outside world, as a sequence of effects:
  acknowledging (deferring) an interaction, replying, editing the reply,
  issuing an HTTP call, and replacing the registered command set.
*/
module Effects {
  import opened Wrappers
  import opened Services
  import Schema

  /** Contents of an attached file: raw bytes, or the UTF-8 encoding of a
      string (`Buffer.from(text)`). */
  datatype Payload = Raw(bytes: Bytes) | Utf8(text: string)

  datatype Attachment = Attachment(name: string, payload: Payload)

  /** The parts of an embed that carry model-relevant text; colour, footer,
      thumbnail and timestamp are rendering only. */
  datatype Embed = Embed(title: Option<string>, description: Option<string>)

  /** Longest embed description, in UTF-16 code units, that the embed
      builder accepts; a longer one makes `setDescription` throw. */
  const DescriptionLimit: nat := 4096

  datatype Message =
    | Plain(content: string)
    | Embedded(embed: Embed)
    | WithFile(content: string, file: Attachment)

  datatype Effect =
    | Defer(ephemeral: bool)
    | Reply(message: Message, ephemeral: bool)
    | Edit(message: Message)
    | Request(call: Call)
    | RegisterCommands(applicationId: string, body: seq<Schema.Command>)

  /** The effects a `try` block issued, and the message of the error it
      threw, if any; the `catch` decides what follows. */
  datatype Run = Run(effects: seq<Effect>, thrown: Option<string>)

  predicate Defers(r: seq<Effect>) {
    exists i :: 0 <= i < |r| && r[i].Defer?
  }

  predicate Requests(r: seq<Effect>) {
    exists i :: 0 <= i < |r| && r[i].Request?
  }

  predicate Registers(r: seq<Effect>) {
    exists i :: 0 <= i < |r| && r[i].RegisterCommands?
  }
}

=== FILE: fun.dfy ===
/** The two small `fun` subcommands (bot.js `handleFunCommands`): `say`
  echoes its text in an embed, and `random-speech-bubble` attaches one GIF
  picked from a remote listing.
*/
module Fun {
  import opened Wrappers
  import opened Services
  import opened Effects
  import opened Interactions
  import opened Text

  const SayWarning := "⚠️ Please provide content to say."

  /** `say`: a warning when there is no content, the content verbatim as
      the embed's description otherwise. Content longer than an embed
      description may be makes the embed builder throw before the reply;
      the handler has no `catch`, so it issues no effect and the error
      escapes the listener. */
  function Say(options: map<string, OptionValue>): (r: seq<Effect>)
    ensures var c := GetString(options, "content");
      r == [] <==> Truthy(c) && Utf16Length(c.value) > DescriptionLimit
    ensures |r| <= 1
    ensures r != [] ==> r[0].Reply? && (Truthy(GetString(options, "content")) <==> !r[0].ephemeral)
    ensures r != [] && Truthy(GetString(options, "content")) ==>
      r[0].message == Embedded(Embed(None, Some(GetString(options, "content").value)))
    ensures !Truthy(GetString(options, "content")) ==> r == [Reply(Plain(SayWarning), true)]
  {
    var content := GetString(options, "content");
    if !Truthy(content) then [Reply(Plain(SayWarning), true)]
    else if Utf16Length(content.value) > DescriptionLimit then []
    else [Reply(Embedded(Embed(None, Some(content.value))), false)]
  }

  const BubbleCaption := "🗨️ Here's your random speech bubble!"
  const BubbleFileName := "speechbubble.gif"
  const BubbleError := "❌ An error occurred while fetching the speech bubble."

  /** The outcome of every call the handler awaits. The listing is the
      sequence of the entries' download URLs; `draw` is the random index
      the handler would pick, taken modulo the listing's length. */
  datatype BubbleWorld = BubbleWorld(
    defer: Outcome<string>,
    listing: Result<seq<string>, string>,
    draw: nat,
    gif: Result<Bytes, string>,
    deliver: Outcome<string>)

  /** The `try` block, after the defer. An empty listing throws, since its
      first entry is read from an empty array. */
  function BubbleAttempt(w: BubbleWorld): (t: Run)
    ensures |t.effects| >= 1 && t.effects[0] == Request(ListBubbles(BubbleListing))
    ensures t.thrown.None? ==> w.listing.Success? && |w.listing.value| > 0
  {
    var listed := [Request(ListBubbles(BubbleListing))];
    match w.listing
    case Failure(m) => Run(listed, Some(m))
    case Success(urls) =>
      if |urls| == 0 then Run(listed, Some("Cannot read properties of undefined (reading 'download_url')"))
      else
        var fetched := listed + [Request(FetchGif(urls[w.draw % |urls|]))];
        match w.gif
        case Failure(m) => Run(fetched, Some(m))
        case Success(bytes) =>
          Run(fetched + [Edit(WithFile(BubbleCaption, Attachment(BubbleFileName, Raw(bytes))))], w.deliver.Thrown())
  }

  /** `random-speech-bubble`. The defer sits outside the `try`: if it fails
      nothing else happens. Otherwise any failure ends in the fixed error
      edit, and the GIF fetched is one of the listed URLs. */
  function SpeechBubble(w: BubbleWorld): (r: seq<Effect>)
    ensures |r| >= 1 && r[0] == Defer(false)
    ensures w.defer.Fail? ==> |r| == 1
    ensures forall i :: 0 <= i < |r| && r[i].Request? && r[i].call.FetchGif? ==>
      w.listing.Success? && r[i].call.url in w.listing.value
  {
    if w.defer.Fail? then [Defer(false)]
    else
      var run := BubbleAttempt(w);
      [Defer(false)] + run.effects + (if run.thrown.Some? then [Edit(Plain(BubbleError))] else [])
  }

  /** After a successful defer, the handler ends in the fixed error edit
      exactly when the listing, the pick, the download or the delivery
      fails; otherwise the GIF at the drawn index is fetched and attached. */
  lemma BubbleFailureIsReported(w: BubbleWorld)
    requires w.defer.Pass?
    ensures var r := SpeechBubble(w);
      && (r[|r| - 1] == Edit(Plain(BubbleError)) <==>
            w.listing.Failure? || |w.listing.value| == 0 || w.gif.Failure? || w.deliver.Fail?)
      && (w.listing.Success? && |w.listing.value| > 0 ==>
            r[2] == Request(FetchGif(w.listing.value[w.draw % |w.listing.value|])))
      && (w.listing.Success? && |w.listing.value| > 0 && w.gif.Success? ==>
            r[3] == Edit(WithFile(BubbleCaption, Attachment(BubbleFileName, Raw(w.gif.value)))))
  {
  }
}

=== FILE: info.dfy ===
/** The `info` subcommands (bot.js `handleInfoCommands`). Their embeds show
  runtime metrics (memory, versions, uptime, latency), which are display
  only; the model keeps the shape of the exchange and the titles.
*/
module Info {
  import opened Wrappers
  import opened Effects

  const BotInfoTitle := "🤖 Bot Information"
  const PingingNotice := "🏓 Pinging..."
  const PongTitle := "🏓 Pong!"

  /** `bot-info`: a single public reply with the information embed. */
  function BotInfo(): (r: seq<Effect>)
    ensures |r| == 1 && r[0] == Reply(Embedded(Embed(Some(BotInfoTitle), None)), false)
  {
    [Reply(Embedded(Embed(Some(BotInfoTitle), None)), false)]
  }

  /** `ping`: a public "pinging" reply, then, once that reply exists, an
      edit to the latency embed. A failed reply ends the handler. */
  function Ping(reply: Outcome<string>): (r: seq<Effect>)
    ensures |r| >= 1 && r[0] == Reply(Plain(PingingNotice), false)
    ensures |r| == 2 <==> reply.Pass?
    ensures |r| == 2 ==> r[1] == Edit(Embedded(Embed(Some(PongTitle), None)))
  {
    [Reply(Plain(PingingNotice), false)] + (if reply.Pass? then [Edit(Embedded(Embed(Some(PongTitle), None)))] else [])
  }
}

=== FILE: interactions.dfy ===
/** A slash-command interaction as the handlers see it: the command and
  subcommand names, the invoking user and the typed option values.
*/
module Interactions {
  import opened Wrappers

  datatype OptionValue = StringValue(text: string) | BooleanValue(flag: bool)

  datatype Interaction = Interaction(
    isChatInput: bool,
    commandName: Option<string>,
    subcommand: Option<string>,
    userId: string,
    options: map<string, OptionValue>)

  /** `options.getString(name)`: the value when a string option of that name
      was given, `None` (JavaScript `null`) otherwise. */
  function GetString(options: map<string, OptionValue>, name: string): (r: Option<string>)
    ensures r.Some? <==> name in options && options[name].StringValue?
    ensures r.Some? ==> options[name] == StringValue(r.value)
  {
    if name in options && options[name].StringValue? then Some(options[name].text) else None
  }

  /** `options.getBoolean(name)`, likewise. */
  function GetBoolean(options: map<string, OptionValue>, name: string): (r: Option<bool>)
    ensures r.Some? <==> name in options && options[name].BooleanValue?
    ensures r.Some? ==> options[name] == BooleanValue(r.value)
  {
    if name in options && options[name].BooleanValue? then Some(options[name].flag) else None
  }

  /** JavaScript truthiness of a string-or-null: absent and empty are both
      falsy. */
  predicate Truthy(s: Option<string>) {
    s.Some? && s.value != ""
  }
}

=== FILE: router.dfy ===
/** The `interactionCreate` listener and its two-level dispatch (bot.js
  `handleInfoCommands`, `handleFunCommands`): a chat-input interaction with
  a group and a subcommand reaches the matching handler; anything else,
  including a known group with an unknown subcommand, is silently dropped.
*/
module Router {
  import opened Wrappers
  import opened Effects
  import opened Interactions
  import opened Text
  import Schema
  import Info
  import Fun
  import Ai
  import Cobalt

  datatype Handler = BotInfo | Ping | SpeechBubble | Ask | Relay | Say

  /** The (group, subcommand) pair each handler answers to. */
  function PairOf(h: Handler): (string, string) {
    match h
    case BotInfo => ("info", "bot-info")
    case Ping => ("info", "ping")
    case SpeechBubble => ("fun", "random-speech-bubble")
    case Ask => ("fun", "ai")
    case Relay => ("fun", "cobalt")
    case Say => ("fun", "say")
  }

  /** The source's nested switch: first on the group, then on the
      subcommand; a missing (or empty) name stops before either. */
  function Route(group: Option<string>, sub: Option<string>): (r: Option<Handler>)
    ensures r.Some? ==> Truthy(group) && Truthy(sub) && PairOf(r.value) == (group.value, sub.value)
    ensures Truthy(group) && Truthy(sub) && (exists h :: PairOf(h) == (group.value, sub.value)) ==> r.Some?
  {
    if !Truthy(group) || !Truthy(sub) then None
    else if group.value == "info" then
      if sub.value == "bot-info" then Some(BotInfo)
      else if sub.value == "ping" then Some(Ping)
      else None
    else if group.value == "fun" then
      if sub.value == "random-speech-bubble" then Some(SpeechBubble)
      else if sub.value == "ai" then Some(Ask)
      else if sub.value == "cobalt" then Some(Relay)
      else if sub.value == "say" then Some(Say)
      else None
    else None
  }

  /** The router and the declaration agree: a handler is chosen exactly for
      the pairs the command schema declares, and it is the handler of that
      pair. */
  lemma RouteAgreesWithSchema(group: Option<string>, sub: Option<string>)
    ensures Route(group, sub).Some? <==>
      group.Some? && sub.Some? && (group.value, sub.value) in Schema.DeclaredPairs(Schema.Commands)
    ensures Route(group, sub).Some? ==> PairOf(Route(group, sub).value) == (group.value, sub.value)
  {
    Schema.CommandsDeclareSixPairs();
    assert forall p :: p in Schema.ExpectedPairs <==>
      p == ("fun", "random-speech-bubble") || p == ("fun", "ai") || p == ("fun", "say")
      || p == ("fun", "cobalt") || p == ("info", "bot-info") || p == ("info", "ping");
  }

  /** Every handler is reachable, through its own pair. */
  lemma RouteReachesEveryHandler(h: Handler)
    ensures Route(Some(PairOf(h).0), Some(PairOf(h).1)) == Some(h)
  {
  }

  /** The outcomes of the calls each handler awaits. */
  datatype World = World(
    pingReply: Outcome<string>,
    bubble: Fun.BubbleWorld,
    ai: Ai.World,
    cobalt: Cobalt.World)

  /** Every handler but `say` acts at least once when invoked; `say` stays
      silent only when its content is too long for an embed. */
  function Invoke(h: Handler, i: Interaction, w: World): (r: seq<Effect>)
    ensures h != Say ==> |r| >= 1
    ensures h == Say && r == [] ==>
      Truthy(GetString(i.options, "content")) && Utf16Length(GetString(i.options, "content").value) > DescriptionLimit
  {
    match h
    case BotInfo => Info.BotInfo()
    case Ping => Info.Ping(w.pingReply)
    case SpeechBubble => Fun.SpeechBubble(w.bubble)
    case Ask => Ai.Handle(i.options, i.userId, w.ai)
    case Relay => Cobalt.Handle(i.options, w.cobalt)
    case Say => Fun.Say(i.options)
  }

  /** A chat-input interaction naming a declared (group, subcommand) pair. */
  predicate Addressed(i: Interaction) {
    && i.isChatInput && i.commandName.Some? && i.subcommand.Some?
    && (i.commandName.value, i.subcommand.value) in Schema.DeclaredPairs(Schema.Commands)
  }

  /** The listener. Something happens only for an addressed interaction,
      and then it is what that pair's handler does; every declared pair but
      `say` is sure to act. */
  function Dispatch(i: Interaction, w: World): (r: seq<Effect>)
    ensures r != [] ==> Addressed(i)
    ensures Addressed(i) ==>
      exists h :: PairOf(h) == (i.commandName.value, i.subcommand.value) && r == Invoke(h, i, w)
    ensures Addressed(i) && (i.commandName.value, i.subcommand.value) != PairOf(Say) ==> r != []
  {
    RouteAgreesWithSchema(i.commandName, i.subcommand);
    if !i.isChatInput then []
    else
      match Route(i.commandName, i.subcommand)
      case None => []
      case Some(h) => Invoke(h, i, w)
  }

  /** A `say` whose content is too long for an embed is a declared pair that
      still issues no effect: the embed builder throws before the reply and
      the error escapes the listener. */
  lemma LongSayIsDropped(i: Interaction, w: World)
    requires i.isChatInput && i.commandName == Some("fun") && i.subcommand == Some("say")
    requires Truthy(GetString(i.options, "content"))
    requires Utf16Length(GetString(i.options, "content").value) > DescriptionLimit
    ensures Addressed(i) && Dispatch(i, w) == []
  {
    RouteAgreesWithSchema(i.commandName, i.subcommand);
  }
}

=== FILE: schema.dfy ===
/** The static command declaration (bot.js `commands`): the body sent to
  the platform's bulk registration endpoint and the shape the router
  follows.
*/
module Schema {

  /** Application-command option types used by the bot: a subcommand
      (type 1), a string option (type 3) and a boolean option (type 5). */
  datatype OptionKind = SubCommand | StringOption | BooleanOption

  datatype Choice = Choice(name: string, value: string)

  /** One entry of an `options` list. `required` is false when the source
      leaves it out; `choices` and `options` are empty when absent. */
  datatype CommandOption = CommandOption(
    name: string,
    description: string,
    kind: OptionKind,
    required: bool,
    choices: seq<Choice>,
    options: seq<CommandOption>)

  /** A top-level command; in this bot each one is a group of subcommands. */
  datatype Command = Command(
    name: string,
    description: string,
    integrationTypes: seq<nat>,
    contexts: seq<nat>,
    options: seq<CommandOption>)

  function Leaf(name: string, description: string, params: seq<CommandOption>): CommandOption {
    CommandOption(name, description, SubCommand, false, [], params)
  }

  function Param(name: string, description: string, kind: OptionKind, required: bool): CommandOption {
    CommandOption(name, description, kind, required, [], [])
  }

  /** The choices offered for `video_quality`, label and value. */
  const VideoQualityChoices: seq<Choice> := [
    Choice("max", "max"),
    Choice("2160p", "2160p"),
    Choice("1080p", "1080"),
    Choice("720p", "720"),
    Choice("480p", "480"),
    Choice("360p", "360"),
    Choice("240p", "240"),
    Choice("144p", "144")
  ]

  const FunGroup: Command := Command("fun", "Fun commands", [0, 1], [0, 1, 2], [
    Leaf("random-speech-bubble", "Displays a random speech bubble GIF", []),
    Leaf("ai", "Generates AI-based text", [
      Param("text", "Prompt for the AI", StringOption, true)
    ]),
    Leaf("say", "Echoes your message", [
      Param("content", "Content to echo", StringOption, true)
    ]),
    Leaf("cobalt", "Downloads a video using cobalt.tools", [
      Param("url", "Video URL", StringOption, true),
      Param("audio", "Only audio?", BooleanOption, false),
      CommandOption("video_quality", "Choose video quality", StringOption, false, VideoQualityChoices, [])
    ])
  ])

  const InfoGroup: Command := Command("info", "Information commands", [0, 1], [0, 1, 2], [
    Leaf("bot-info", "Displays information about the bot", []),
    Leaf("ping", "Checks the bot's latency", [])
  ])

  /** The full declaration, in source order. */
  const Commands: seq<Command> := [FunGroup, InfoGroup]

  /** Names of the subcommands declared under one group, in order. */
  function SubcommandNames(opts: seq<CommandOption>): (names: seq<string>)
    ensures |names| <= |opts|
    ensures forall n :: n in names <==> exists o :: o in opts && o.kind == SubCommand && o.name == n
  {
    if |opts| == 0 then []
    else
      var rest := SubcommandNames(opts[1..]);
      assert forall o :: o in opts[1..] ==> o in opts;
      assert forall o :: o in opts ==> o == opts[0] || o in opts[1..];
      if opts[0].kind == SubCommand then [opts[0].name] + rest else rest
  }

  /** Each name of `names` paired with the group `g`. */
  function Tag(g: string, names: seq<string>): (pairs: seq<(string, string)>)
    ensures |pairs| == |names|
    ensures forall i :: 0 <= i < |names| ==> pairs[i] == (g, names[i])
  {
    if |names| == 0 then [] else [(g, names[0])] + Tag(g, names[1..])
  }

  /** The (group, subcommand) pairs the declaration admits, in order. */
  function DeclaredPairs(cmds: seq<Command>): seq<(string, string)> {
    if |cmds| == 0 then []
    else Tag(cmds[0].name, SubcommandNames(cmds[0].options)) + DeclaredPairs(cmds[1..])
  }

  /** A pair is declared exactly when some command of that name lists a
      subcommand of that name. */
  lemma {:induction false} DeclaredPairsMembership(cmds: seq<Command>, g: string, s: string)
    ensures (g, s) in DeclaredPairs(cmds) <==>
      exists c :: c in cmds && c.name == g && s in SubcommandNames(c.options)
    decreases |cmds|
  {
    if |cmds| > 0 {
      DeclaredPairsMembership(cmds[1..], g, s);
      var names := SubcommandNames(cmds[0].options);
      var here := Tag(cmds[0].name, names);
      assert (g, s) in here <==> g == cmds[0].name && s in names by {
        if (g, s) in here {
          var i :| 0 <= i < |here| && here[i] == (g, s);
        }
        if g == cmds[0].name && s in names {
          var i :| 0 <= i < |names| && names[i] == s;
          assert here[i] == (g, s);
        }
      }
      assert forall c :: c in cmds <==> c == cmds[0] || c in cmds[1..];
    }
  }

  predicate Distinct<T(==)>(xs: seq<T>) {
    forall i, j :: 0 <= i < j < |xs| ==> xs[i] != xs[j]
  }

  /** Group names are unique, and subcommand names are unique within a group,
      so every (group, subcommand) pair names one declared leaf. */
  predicate WellFormed(cmds: seq<Command>) {
    && Distinct(seq(|cmds|, i requires 0 <= i < |cmds| => cmds[i].name))
    && forall c :: c in cmds ==> Distinct(SubcommandNames(c.options))
  }

  /** The declared pairs, spelled out: two groups and six subcommands. */
  const ExpectedPairs: seq<(string, string)> := [
    ("fun", "random-speech-bubble"), ("fun", "ai"), ("fun", "say"), ("fun", "cobalt"),
    ("info", "bot-info"), ("info", "ping")
  ]

  lemma FunSubcommands()
    ensures SubcommandNames(FunGroup.options) == ["random-speech-bubble", "ai", "say", "cobalt"]
  {
    var o := FunGroup.options;
    assert |o| == 4;
    assert o[3].kind == SubCommand && o[2].kind == SubCommand;
    assert o[1].kind == SubCommand && o[0].kind == SubCommand;
    assert SubcommandNames(o[4..]) == [] by {
      assert o[4..] == [];
    }
    assert SubcommandNames(o[3..]) == ["cobalt"] by {
      assert o[3..][1..] == o[4..];
    }
    assert SubcommandNames(o[2..]) == ["say", "cobalt"] by {
      assert o[2..][1..] == o[3..];
    }
    assert SubcommandNames(o[1..]) == ["ai", "say", "cobalt"] by {
      assert o[1..][1..] == o[2..];
    }
  }

  lemma InfoSubcommands()
    ensures SubcommandNames(InfoGroup.options) == ["bot-info", "ping"]
  {
    var o := InfoGroup.options;
    assert SubcommandNames(o[1..]) == ["ping"] by {
      assert o[1..][1..] == [];
    }
  }

  /** The declaration admits exactly the six pairs of `ExpectedPairs`. */
  lemma CommandsDeclareSixPairs()
    ensures DeclaredPairs(Commands) == ExpectedPairs
  {
    FunSubcommands();
    InfoSubcommands();
    assert Tag("info", ["bot-info", "ping"]) == [("info", "bot-info"), ("info", "ping")];
    assert Tag("fun", ["random-speech-bubble", "ai", "say", "cobalt"]) == ExpectedPairs[..4];
    assert DeclaredPairs(Commands[1..]) == ExpectedPairs[4..] by {
      assert Commands[1..][1..] == [];
    }
    assert DeclaredPairs(Commands) == ExpectedPairs[..4] + ExpectedPairs[4..];
  }

  /** No pair is declared twice, and names are unique at both levels. */
  lemma CommandsWellFormed()
    ensures Distinct(DeclaredPairs(Commands))
    ensures WellFormed(Commands)
  {
    CommandsDeclareSixPairs();
    ExpectedPairsDistinct();
    SubcommandsDistinct();
    assert seq(|Commands|, i requires 0 <= i < |Commands| => Commands[i].name) == ["fun", "info"];
  }

  lemma ExpectedPairsDistinct()
    ensures Distinct(ExpectedPairs)
  {
  }

  lemma SubcommandsDistinct()
    ensures forall c :: c in Commands ==> Distinct(SubcommandNames(c.options))
  {
    FunSubcommands();
    InfoSubcommands();
    assert forall c :: c in Commands ==> c == FunGroup || c == InfoGroup;
  }
}

=== FILE: services.dfy ===
/** The external HTTP collaborators at their boundary: the endpoints the
  bot calls, the requests it sends, and the shapes of the answers it
  inspects. Network transport, headers and timeouts are not modelled; the
  answers arrive as oracle values.
*/
module Services {
  import opened Wrappers

  type Bytes = seq<bv8>

  const CobaltEndpoint := "https://cobalt.liba.lol/"
  const CatboxEndpoint := "https://catbox.moe/user/api.php"
  const GenerateEndpoint := "http://127.0.0.1:3000/api/generate-text"
  const BubbleListing := "https://api.github.com/repos/chlkrisz/speech-bubbles/contents/gifs"

  /** The JSON body posted to the conversion service. */
  datatype CobaltRequest = CobaltRequest(
    url: string,
    alwaysProxy: bool,
    filenameStyle: string,
    videoQuality: string,
    downloadMode: string)

  /** The fields of a successful conversion answer that the bot reads. */
  datatype CobaltReply = CobaltReply(url: string, filename: string)

  /** Every outbound HTTP call the handlers issue. */
  datatype Call =
    | Convert(endpoint: string, request: CobaltRequest)
    | Download(url: string)
    | Upload(endpoint: string, reqType: string, fileName: string, file: Bytes)
    | Generate(endpoint: string, prompt: string)
    | ListBubbles(endpoint: string)
    | FetchGif(url: string)

  /** A response body as the client hands it over: a string, a parsed JSON
      object, any other truthy value (a non-zero number, `true`, an array, a
      buffer), or a falsy non-string value (`0`, `null`, `false`). The last
      two carry the text a template literal renders them to. */
  datatype HttpBody =
    | TextBody(text: string)
    | JsonObject
    | OtherBody(rendered: string)
    | FalsyBody(rendered: string)

  /** `${body}`: a plain object renders as `[object Object]`, whatever its
      fields say. */
  function Render(body: HttpBody): string {
    match body
    case TextBody(t) => t
    case JsonObject => "[object Object]"
    case OtherBody(r) => r
    case FalsyBody(r) => r
  }

  /** JavaScript truthiness of a body: the empty string and the falsy
      non-string values are falsy; every object, including an empty one, is
      truthy. */
  predicate TruthyBody(body: HttpBody) {
    match body
    case TextBody(t) => t != ""
    case JsonObject => true
    case OtherBody(_) => true
    case FalsyBody(_) => false
  }

  /** A call that threw: the body of the error response when there was
      one, and the error's message. */
  datatype ServiceError = ServiceError(data: Option<HttpBody>, message: string)

  /** `error.response?.data || error.message`, as a template literal
      renders it. */
  function Detail(e: ServiceError): (d: string)
    ensures e.data.Some? && TruthyBody(e.data.value) ==> d == Render(e.data.value)
    ensures !(e.data.Some? && TruthyBody(e.data.value)) ==> d == e.message
  {
    if e.data.Some? && TruthyBody(e.data.value) then Render(e.data.value) else e.message
  }

  /** How the upload call ended: the client resolved with a response, or it
      threw, with the status of the error response when there was one. */
  datatype UploadResponse =
    | Responded(status: nat, body: HttpBody)
    | Threw(errorStatus: Option<nat>, message: string)
}

=== FILE: sync.dfy ===
/** The `$sync` maintenance command (bot.js `messageCreate` listener): a
  prefix-message parser, an owner check, and the bulk registration of the
  declared commands.
*/
module Sync {
  import opened Wrappers
  import opened Text
  import opened Effects
  import Schema

  const Prefix: char := '$'
  const SyncCommand := "sync"
  const DeniedNotice := "🚫 You do not have permission to perform this action."
  const RefreshingNotice := "🔄 Refreshing application commands..."
  const RefreshedNotice := "✅ Application commands have been refreshed."
  const RefreshFailed := "❌ An error occurred while refreshing application commands."

  datatype ChatMessage = ChatMessage(authorIsBot: bool, authorId: string, content: string)

  /** The command word of a prefixed message: drop the `$`, trim, split on
      runs of spaces and lower-case the first piece. `None` when the
      message does not start with `$`. */
  function CommandWord(content: string): (w: Option<string>)
    ensures w.Some? <==> |content| > 0 && content[0] == Prefix
    ensures w.Some? ==> ' ' !in w.value
    ensures w.Some? ==> forall i :: 0 <= i < |w.value| ==> !IsAsciiUpper(w.value[i])
  {
    if |content| > 0 && content[0] == Prefix then
      var words := SplitOnSpaces(Trim(content[1..]));
      Some(ToLower(words[0]))
    else None
  }

  /** The command word is the lower-cased longest space-free prefix of the
      trimmed text after the `$`. */
  lemma CommandWordIsLeadingWord(content: string)
    requires |content| > 0 && content[0] == Prefix
    ensures var t := Trim(content[1..]);
      CommandWord(content) == Some(ToLower(t[..SpaceIndex(t)]))
  {
    FirstPieceIsLeadingWord(Trim(content[1..]));
  }

  predicate NoWhitespace(s: string) {
    forall i :: 0 <= i < |s| ==> !IsWhitespace(s[i])
  }

  /** Extra words after the command and upper case do not matter: `$` then
      a word, then a space and anything, reads as that word in lower case. */
  lemma CommandWordIgnoresArguments(word: string, rest: string)
    requires |word| > 0 && NoWhitespace(word)
    ensures CommandWord([Prefix] + word + " " + rest) == Some(ToLower(word))
  {
    var content := [Prefix] + word + " " + rest;
    var body := word + " " + rest;
    assert content[1..] == body;
    assert LeadingWhitespace(body) == 0 by {
      assert body[0] == word[0];
    }
    var k := TrailingWhitespace(body);
    TrimBounds(body, 0, k);
    var t := Trim(body);
    assert t == body[0..|body| - k];
    assert |body| - k >= |word| by {
      assert body[|word| - 1] == word[|word| - 1];
    }
    assert t[..|word|] == word;
    assert |t| > |word| ==> t[|word|] == ' ';
    SpaceIndexAfterWord(word, t);
    FirstPieceIsLeadingWord(t);
  }

  /** A prefix free of spaces that ends the text or is followed by a space
      is where the first space is. */
  lemma {:induction false} SpaceIndexAfterWord(word: string, t: string)
    requires NoWhitespace(word) && HasPrefix(t, word)
    requires |t| == |word| || t[|word|] == ' '
    ensures SpaceIndex(t) == |word|
    decreases |word|
  {
    if |word| > 0 {
      assert t[0] == word[0];
      assert NoWhitespace(word[1..]) by {
        assert forall i :: 0 <= i < |word| - 1 ==> word[1..][i] == word[i + 1];
      }
      assert t[1..][..|word| - 1] == word[1..];
      SpaceIndexAfterWord(word[1..], t[1..]);
    } else if |t| > 0 {
      assert t[0] == ' ';
    }
  }

  /** The outcome of every call the owner's `$sync` awaits. */
  datatype World = World(acknowledge: Outcome<string>, register: Outcome<string>, confirm: Outcome<string>)

  /** The owner's refresh: the acknowledgement, the registration of the
      full declaration under the client id, the confirmation edit, and on
      the first failure one error reply. The registration is attempted
      exactly when the acknowledgement went out. */
  function Refresh(clientId: string, w: World): (r: seq<Effect>)
    ensures |r| >= 2 && r[0] == Reply(Plain(RefreshingNotice), false)
    ensures Registers(r) <==> w.acknowledge.Pass?
    ensures forall i :: 0 <= i < |r| && r[i].RegisterCommands? ==>
      r[i] == RegisterCommands(clientId, Schema.Commands)
    ensures r[|r| - 1] == Reply(Plain(RefreshFailed), false) <==>
      w.acknowledge.Fail? || w.register.Fail? || w.confirm.Fail?
    ensures w.acknowledge.Pass? ==>
      && r[1] == RegisterCommands(clientId, Schema.Commands)
      && forall i :: 2 <= i < |r| ==> !r[i].RegisterCommands?
    ensures w.acknowledge.Pass? && w.register.Pass? ==> |r| >= 3 && r[2] == Edit(Plain(RefreshedNotice))
  {
    if w.acknowledge.Fail? then
      [Reply(Plain(RefreshingNotice), false), Reply(Plain(RefreshFailed), false)]
    else
      var registered := [Reply(Plain(RefreshingNotice), false), RegisterCommands(clientId, Schema.Commands)];
      var rest :=
        if w.register.Fail? then [Reply(Plain(RefreshFailed), false)]
        else if w.confirm.Fail? then [Edit(Plain(RefreshedNotice)), Reply(Plain(RefreshFailed), false)]
        else [Edit(Plain(RefreshedNotice))];
      assert (registered + rest)[1].RegisterCommands?;
      registered + rest
  }

  /** A `$sync` from a human. */
  predicate SyncRequested(m: ChatMessage) {
    !m.authorIsBot && CommandWord(m.content) == Some(SyncCommand)
  }

  /** The listener. Messages from bots, without the prefix, or naming any
      other command are ignored; a non-owner gets only the denial; the
      owner gets the refresh. When the owner id is not configured nobody is
      the owner. */
  function Handle(m: ChatMessage, ownerId: Option<string>, clientId: string, w: World): (r: seq<Effect>)
    ensures !SyncRequested(m) ==> r == []
    ensures SyncRequested(m) && ownerId != Some(m.authorId) ==> r == [Reply(Plain(DeniedNotice), false)]
    ensures Registers(r) ==> SyncRequested(m) && ownerId == Some(m.authorId)
    ensures SyncRequested(m) && ownerId == Some(m.authorId) ==> r == Refresh(clientId, w)
  {
    if !SyncRequested(m) then []
    else if ownerId != Some(m.authorId) then [Reply(Plain(DeniedNotice), false)]
    else Refresh(clientId, w)
  }
}

=== FILE: text.dfy ===
/** The string operations the bot performs on user input and on rendered
  numbers: JavaScript's `trim`, `split(/ +/)`, ASCII `toLowerCase`, the
  UTF-16 `length`, and decimal rendering of non-negative integers (the
  `${n}` template conversion).
*/
module Text {

  /** ECMAScript WhiteSpace and LineTerminator code points, which `trim`
      removes: TAB, LF, VT, FF, CR, SPACE, NBSP, OGHAM SPACE MARK, the
      U+2000..U+200A spaces, LINE/PARAGRAPH SEPARATOR, NARROW NBSP,
      MEDIUM MATHEMATICAL SPACE, IDEOGRAPHIC SPACE and the BOM. */
  predicate IsWhitespace(c: char) {
    || c == '\t' || c == '\n' || c == '\U{000B}' || c == '\U{000C}' || c == '\r'
    || c == ' ' || c == '\U{00A0}' || c == '\U{1680}'
    || ('\U{2000}' <= c <= '\U{200A}')
    || c == '\U{2028}' || c == '\U{2029}' || c == '\U{202F}' || c == '\U{205F}'
    || c == '\U{3000}' || c == '\U{FEFF}'
  }

  predicate AllWhitespace(s: string) {
    forall i :: 0 <= i < |s| ==> IsWhitespace(s[i])
  }

  /** No whitespace at either end: what `trim` guarantees of its result. */
  predicate Trimmed(s: string) {
    |s| == 0 || (!IsWhitespace(s[0]) && !IsWhitespace(s[|s| - 1]))
  }

  /** Number of leading whitespace characters. */
  function LeadingWhitespace(s: string): (n: nat)
    ensures n <= |s|
    ensures forall p :: 0 <= p < n ==> IsWhitespace(s[p])
    ensures n < |s| ==> !IsWhitespace(s[n])
    decreases |s|
  {
    if |s| > 0 && IsWhitespace(s[0]) then 1 + LeadingWhitespace(s[1..]) else 0
  }

  /** Number of trailing whitespace characters. */
  function TrailingWhitespace(s: string): (n: nat)
    ensures n <= |s|
    ensures forall p :: |s| - n <= p < |s| ==> IsWhitespace(s[p])
    ensures n < |s| ==> !IsWhitespace(s[|s| - n - 1])
    decreases |s|
  {
    if |s| > 0 && IsWhitespace(s[|s| - 1]) then
      var p := s[..|s| - 1];
      var m := TrailingWhitespace(p);
      1 + m
    else 0
  }

  /** `String.prototype.trim`: the slice of `s` left after removing the
      maximal whitespace prefix and suffix. */
  function Trim(s: string): (r: string)
    ensures Trimmed(r)
    ensures exists i, j :: 0 <= i <= j <= |s| && r == s[i..j]
                           && AllWhitespace(s[..i]) && AllWhitespace(s[j..])
  {
    var i := LeadingWhitespace(s);
    if i == |s| then
      assert s[..i] == s[0..];
      s[0..0]
    else
      var k := TrailingWhitespace(s);
      TrimBounds(s, i, k);
      s[i..|s| - k]
  }

  /** Unless `s` is all whitespace, its leading and trailing whitespace
      runs leave at least one character between them. */
  lemma TrimBounds(s: string, i: nat, k: nat)
    requires i == LeadingWhitespace(s) && i < |s| && k == TrailingWhitespace(s)
    ensures i < |s| - k
  {
  }

  /** Trimming is idempotent. */
  lemma TrimIdempotent(s: string)
    ensures Trim(Trim(s)) == Trim(s)
  {
    var t := Trim(s);
    if |t| > 0 {
      assert LeadingWhitespace(t) == 0;
      assert TrailingWhitespace(t) == 0;
      assert t[0..|t|] == t;
    }
  }

  /** Index of the first U+0020 SPACE in `s`, or `|s|` when there is none. */
  function SpaceIndex(s: string): (k: nat)
    ensures k <= |s|
    ensures ' ' !in s[..k]
    ensures k < |s| ==> s[k] == ' '
    decreases |s|
  {
    if |s| == 0 then 0
    else if s[0] == ' ' then 0
    else 1 + SpaceIndex(s[1..])
  }

  /** End of the run of spaces that starts at `k`. */
  function SkipSpaces(s: string, k: nat): (j: nat)
    requires k <= |s|
    ensures k <= j <= |s|
    ensures forall i :: k <= i < j ==> s[i] == ' '
    ensures j < |s| ==> s[j] != ' '
    decreases |s| - k
  {
    if k < |s| && s[k] == ' ' then SkipSpaces(s, k + 1) else k
  }

  /** `s.split(/ +/)`: the pieces between maximal runs of U+0020. As in
      JavaScript, the result is never empty, an empty input yields `[""]`
      and a leading or trailing run yields an empty first or last piece. */
  function SplitOnSpaces(s: string): (r: seq<string>)
    ensures |r| >= 1
    ensures forall i :: 0 <= i < |r| ==> ' ' !in r[i]
    decreases |s|
  {
    var k := SpaceIndex(s);
    if k == |s| then
      assert s[..k] == s;
      [s]
    else
      [s[..k]] + SplitOnSpaces(s[SkipSpaces(s, k)..])
  }

  function Concat(ss: seq<string>): string {
    if |ss| == 0 then "" else ss[0] + Concat(ss[1..])
  }

  /** `s` with every U+0020 removed. */
  function WithoutSpaces(s: string): string {
    if |s| == 0 then "" else (if s[0] == ' ' then "" else [s[0]]) + WithoutSpaces(s[1..])
  }

  lemma {:induction false} WithoutSpacesAppend(a: string, b: string)
    ensures WithoutSpaces(a + b) == WithoutSpaces(a) + WithoutSpaces(b)
  {
    if |a| > 0 {
      assert (a + b)[1..] == a[1..] + b;
      WithoutSpacesAppend(a[1..], b);
    } else {
      assert a + b == b;
    }
  }

  lemma {:induction false} WithoutSpacesOfSpaceFree(s: string)
    requires ' ' !in s
    ensures WithoutSpaces(s) == s
    decreases |s|
  {
    if |s| > 0 {
      assert ' ' !in s[1..];
      WithoutSpacesOfSpaceFree(s[1..]);
    }
  }

  lemma {:induction false} WithoutSpacesOfSpaces(s: string)
    requires forall i :: 0 <= i < |s| ==> s[i] == ' '
    ensures WithoutSpaces(s) == ""
    decreases |s|
  {
    if |s| > 0 {
      WithoutSpacesOfSpaces(s[1..]);
    }
  }

  /** Removing the spaces of a word, a run of spaces and a remainder keeps
      the word and whatever the remainder keeps. */
  lemma WithoutSpacesOfWordGap(w: string, gap: string, rest: string)
    requires ' ' !in w
    requires forall p :: 0 <= p < |gap| ==> gap[p] == ' '
    ensures WithoutSpaces(w + gap + rest) == w + WithoutSpaces(rest)
  {
    calc {
      WithoutSpaces(w + gap + rest);
    == { WithoutSpacesAppend(w + gap, rest); }
      WithoutSpaces(w + gap) + WithoutSpaces(rest);
    == { WithoutSpacesAppend(w, gap); WithoutSpacesOfSpaceFree(w); WithoutSpacesOfSpaces(gap); }
      w + "" + WithoutSpaces(rest);
    == { assert w + "" == w; }
      w + WithoutSpaces(rest);
    }
  }

  /** Splitting loses only the separators: the pieces put back together are
      the input with its spaces removed. */
  lemma {:induction false} SplitKeepsContent(s: string)
    ensures Concat(SplitOnSpaces(s)) == WithoutSpaces(s)
    decreases |s|
  {
    var k := SpaceIndex(s);
    if k == |s| {
      assert s[..k] == s;
      WithoutSpacesOfSpaceFree(s);
      assert Concat([s]) == s + Concat([]);
    } else {
      var j := SkipSpaces(s, k);
      var r := SplitOnSpaces(s);
      assert r == [s[..k]] + SplitOnSpaces(s[j..]);
      assert r[1..] == SplitOnSpaces(s[j..]);
      SplitKeepsContent(s[j..]);
      assert s == s[..k] + s[k..j] + s[j..];
      WithoutSpacesOfWordGap(s[..k], s[k..j], s[j..]);
    }
  }

  /** The first piece of a split is the longest prefix free of spaces: this
      is the word `args.shift()` takes. */
  lemma FirstPieceIsLeadingWord(s: string)
    ensures SplitOnSpaces(s)[0] == s[..SpaceIndex(s)]
  {
  }

  /** A string with no surrounding spaces that is not empty splits into
      non-empty words. */
  lemma {:induction false} SplitOfTrimmedHasNoEmptyPiece(s: string)
    requires |s| > 0 && s[0] != ' ' && s[|s| - 1] != ' '
    ensures forall i :: 0 <= i < |SplitOnSpaces(s)| ==> |SplitOnSpaces(s)[i]| > 0
    decreases |s|
  {
    var k := SpaceIndex(s);
    if k < |s| {
      var j := SkipSpaces(s, k);
      assert j < |s|;
      SplitOfTrimmedHasNoEmptyPiece(s[j..]);
      var r := SplitOnSpaces(s);
      assert r == [s[..k]] + SplitOnSpaces(s[j..]);
      forall i | 0 <= i < |r|
        ensures |r[i]| > 0
      {
        if i > 0 {
          assert r[i] == SplitOnSpaces(s[j..])[i - 1];
        }
      }
    }
  }

  predicate HasPrefix(s: string, p: string) {
    |p| <= |s| && s[..|p|] == p
  }

  predicate IsAsciiUpper(c: char) {
    'A' <= c <= 'Z'
  }

  function LowerChar(c: char): (d: char)
    ensures !IsAsciiUpper(d)
    ensures IsAsciiUpper(c) ==> d as int == c as int + 32
    ensures !IsAsciiUpper(c) ==> d == c
  {
    if IsAsciiUpper(c) then (c as int + 32) as char else c
  }

  /** `toLowerCase` restricted to ASCII: `A`..`Z` map to `a`..`z`, every
      other character is kept. */
  function ToLower(s: string): (r: string)
    ensures |r| == |s|
    ensures forall i :: 0 <= i < |r| ==> r[i] == LowerChar(s[i])
  {
    seq(|s|, i requires 0 <= i < |s| => LowerChar(s[i]))
  }

  lemma ToLowerIdempotent(s: string)
    ensures ToLower(ToLower(s)) == ToLower(s)
  {
  }

  /** JavaScript's `length`: the number of UTF-16 code units, so a code
      point above U+FFFF (an emoji, say) counts twice. */
  function Utf16Length(s: string): (n: nat)
    ensures |s| <= n <= 2 * |s|
    decreases |s|
  {
    if |s| == 0 then 0
    else (if s[|s| - 1] as int > 0xFFFF then 2 else 1) + Utf16Length(s[..|s| - 1])
  }

  /** Positions of the characters above U+FFFF, each of which UTF-16
      encodes as a surrogate pair. */
  function AstralPositions(s: string): set<nat> {
    set i: nat | i < |s| && s[i] as int > 0xFFFF
  }

  /** The UTF-16 length is the character count plus one for every
      character outside the Basic Multilingual Plane. */
  lemma {:induction false} Utf16LengthCountsAstral(s: string)
    ensures Utf16Length(s) == |s| + |AstralPositions(s)|
    decreases |s|
  {
    if |s| > 0 {
      var p := s[..|s| - 1];
      Utf16LengthCountsAstral(p);
      var last := |s| - 1;
      assert AstralPositions(p) <= AstralPositions(s);
      if s[last] as int > 0xFFFF {
        assert AstralPositions(s) == AstralPositions(p) + {last};
        assert last !in AstralPositions(p);
      } else {
        assert AstralPositions(s) == AstralPositions(p);
      }
    } else {
      assert AstralPositions(s) == {};
    }
  }

  /** UTF-16 length adds up over concatenation. */
  lemma {:induction false} Utf16LengthAppend(a: string, b: string)
    ensures Utf16Length(a + b) == Utf16Length(a) + Utf16Length(b)
    decreases |b|
  {
    if |b| == 0 {
      assert a + b == a;
    } else {
      var ab := a + b;
      assert ab[..|ab| - 1] == a + b[..|b| - 1];
      assert ab[|ab| - 1] == b[|b| - 1];
      Utf16LengthAppend(a, b[..|b| - 1]);
    }
  }

  predicate InBasicPlane(s: string) {
    forall i :: 0 <= i < |s| ==> s[i] as int <= 0xFFFF
  }

  /** For text in the Basic Multilingual Plane the UTF-16 length is the
      number of characters. */
  lemma {:induction false} Utf16LengthOfBasicPlane(s: string)
    ensures InBasicPlane(s) <==> Utf16Length(s) == |s|
    decreases |s|
  {
    if |s| > 0 {
      var p := s[..|s| - 1];
      Utf16LengthOfBasicPlane(p);
      if InBasicPlane(s) {
        assert InBasicPlane(p);
      } else if s[|s| - 1] as int <= 0xFFFF {
        var i :| 0 <= i < |s| && s[i] as int > 0xFFFF;
        assert p[i] == s[i];
      }
    }
  }

  predicate IsDigit(c: char) {
    '0' <= c <= '9'
  }

  predicate AllDigits(s: string) {
    forall i :: 0 <= i < |s| ==> IsDigit(s[i])
  }

  function DigitChar(d: nat): (c: char)
    requires d < 10
    ensures IsDigit(c)
    ensures c as int - '0' as int == d
  {
    ('0' as int + d) as char
  }

  /** Decimal rendering of a non-negative integer, as `${n}` produces it:
      only digits, and no leading zero unless the number is 0. */
  function NatToString(n: nat): (r: string)
    ensures |r| >= 1
    ensures AllDigits(r)
    ensures |r| > 1 ==> r[0] != '0'
    decreases n
  {
    if n < 10 then [DigitChar(n)] else NatToString(n / 10) + [DigitChar(n % 10)]
  }

  /** The value of a string of decimal digits, read most significant first. */
  function DecimalValue(s: string): nat
    requires AllDigits(s)
    decreases |s|
  {
    if |s| == 0 then 0
    else 10 * DecimalValue(s[..|s| - 1]) + (s[|s| - 1] as int - '0' as int)
  }

  /** Reading back a rendered number gives the number. */
  lemma {:induction false} NatToStringRoundTrip(n: nat)
    ensures DecimalValue(NatToString(n)) == n
    decreases n
  {
    if n >= 10 {
      var r := NatToString(n);
      NatToStringRoundTrip(n / 10);
      assert r[..|r| - 1] == NatToString(n / 10);
    }
  }

  /** Length of the longest prefix of `s` made of digits. */
  function DigitSpan(s: string): (k: nat)
    ensures k <= |s|
    ensures AllDigits(s[..k])
    ensures k < |s| ==> !IsDigit(s[k])
    decreases |s|
  {
    if |s| > 0 && IsDigit(s[0]) then 1 + DigitSpan(s[1..]) else 0
  }

  /** A run of digits followed by a non-digit is read up to its end. */
  lemma {:induction false} DigitSpanOfDigitsThen(d: string, rest: string)
    requires AllDigits(d)
    requires |rest| > 0 && !IsDigit(rest[0])
    ensures DigitSpan(d + rest) == |d|
    decreases |d|
  {
    if |d| > 0 {
      assert (d + rest)[1..] == d[1..] + rest;
      DigitSpanOfDigitsThen(d[1..], rest);
    } else {
      assert d + rest == rest;
    }
  }
}

=== FILE: uptime.dfy ===
/** bot.js `formatUptime`: seconds of uptime rendered as `{h}h {m}m {s}s`.

  The source receives `process.uptime()`, a non-negative number of
  seconds with a fractional part. `Format` works on whole seconds;
  `ClockOfReal` follows the source's floor/remainder arithmetic on a real
  argument and `RealUptimeIsWholeSeconds` shows it only ever sees the whole
  part.
*/
module Uptime {
  import opened Wrappers
  import opened Text

  datatype Clock = Clock(hours: nat, minutes: nat, seconds: nat)

  /** Hours, minutes and seconds of `u` seconds: the minutes and seconds
      are below 60, the hours unbounded, and together they add up to `u`. */
  function ClockOf(u: nat): (c: Clock)
    ensures c.hours * 3600 + c.minutes * 60 + c.seconds == u
    ensures c.minutes < 60 && c.seconds < 60
  {
    Clock(u / 3600, (u % 3600) / 60, u % 60)
  }

  /** The decomposition is the only one with minutes and seconds below 60. */
  lemma ClockOfUnique(u: nat, c: Clock)
    requires c.hours * 3600 + c.minutes * 60 + c.seconds == u
    requires c.minutes < 60 && c.seconds < 60
    ensures c == ClockOf(u)
  {
    var m := c.minutes * 60 + c.seconds;
    assert m < 3600;
    assert u == c.hours * 3600 + m;
    assert u / 3600 == c.hours && u % 3600 == m;
    assert m / 60 == c.minutes && m % 60 == c.seconds;
    assert u % 60 == c.seconds by {
      assert u == (c.hours * 60 + c.minutes) * 60 + c.seconds;
    }
  }

  function RenderClock(c: Clock): string {
    NatToString(c.hours) + "h " + NatToString(c.minutes) + "m " + NatToString(c.seconds) + "s"
  }

  /** `formatUptime` on whole seconds: the rendering reads back as the
      hours, minutes and seconds of `u`. */
  function Format(u: nat): (r: string)
    ensures ParseClock(r) == Some(ClockOf(u))
  {
    RenderClockRoundTrip(ClockOf(u));
    RenderClock(ClockOf(u))
  }

  /** Reads `{digits}{unit}` at the start of `s`, where `unit` is the text
      that must follow the number; gives the number and what is left. */
  function ReadField(s: string, unit: string): Option<(nat, string)> {
    var k := DigitSpan(s);
    if k > 0 && HasPrefix(s[k..], unit) then Some((DecimalValue(s[..k]), s[k + |unit|..])) else None
  }

  /** The three fields of a rendering, if the text is one. */
  function ParseClock(s: string): Option<Clock> {
    match ReadField(s, "h ")
    case None => None
    case Some((h, r1)) =>
      match ReadField(r1, "m ")
      case None => None
      case Some((m, r2)) =>
        match ReadField(r2, "s")
        case None => None
        case Some((sec, r3)) => if r3 == [] then Some(Clock(h, m, sec)) else None
  }

  /** The inverse of `Format`: the number of seconds a rendering stands for,
      or `None` if the text is not one. */
  function Parse(s: string): Option<nat> {
    match ParseClock(s)
    case None => None
    case Some(c) =>
      if c.minutes < 60 && c.seconds < 60 then Some(c.hours * 3600 + c.minutes * 60 + c.seconds) else None
  }

  lemma ReadRenderedField(n: nat, unit: string, rest: string)
    requires |unit| > 0 && !IsDigit(unit[0])
    ensures ReadField(NatToString(n) + unit + rest, unit) == Some((n, rest))
  {
    var d := NatToString(n);
    var s := d + unit + rest;
    assert s == d + (unit + rest);
    DigitSpanOfDigitsThen(d, unit + rest);
    assert s[..|d|] == d;
    assert s[|d|..] == unit + rest;
    assert s[|d| + |unit|..] == rest;
    NatToStringRoundTrip(n);
  }

  lemma RenderClockRoundTrip(c: Clock)
    ensures ParseClock(RenderClock(c)) == Some(c)
  {
    var hs := NatToString(c.hours);
    var ms := NatToString(c.minutes);
    var ss := NatToString(c.seconds);
    var r2 := ss + "s";
    var r1 := ms + "m " + r2;
    assert RenderClock(c) == hs + "h " + r1;
    ReadRenderedField(c.hours, "h ", r1);
    ReadRenderedField(c.minutes, "m ", r2);
    assert r2 == ss + "s" + [];
    ReadRenderedField(c.seconds, "s", []);
  }

  /** Reading a rendering back gives the uptime it was made from. */
  lemma FormatRoundTrip(u: nat)
    ensures Parse(Format(u)) == Some(u)
  {
    RenderClockRoundTrip(ClockOf(u));
  }

  /** Different uptimes render differently. */
  lemma FormatInjective(u: nat, v: nat)
    requires Format(u) == Format(v)
    ensures u == v
  {
    FormatRoundTrip(u);
    FormatRoundTrip(v);
  }

  /** The source's arithmetic on a real `u`: `Math.floor(u / 3600)`,
      `Math.floor((u % 3600) / 60)` and `Math.floor(u % 60)`, where for
      `u >= 0` JavaScript's `%` is `u - d * Math.floor(u / d)`. */
  function ClockOfReal(u: real): Clock
    requires u >= 0.0
  {
    var h := (u / 3600.0).Floor;
    var inHour := u - 3600.0 * h as real;
    var m := (inHour / 60.0).Floor;
    var s := (u - 60.0 * (u / 60.0).Floor as real).Floor;
    Clock(if h < 0 then 0 else h, if m < 0 then 0 else m, if s < 0 then 0 else s)
  }

  /** `Math.floor(u / d)` only depends on the whole part of `u`. */
  lemma FloorDivOfWholePart(u: real, d: nat)
    requires u >= 0.0 && d > 0
    ensures (u / d as real).Floor == u.Floor / d
  {
    var n := u.Floor;
    var q := n / d;
    var r := n % d;
    assert n == q * d + r && 0 <= r < d;
    assert q as real * d as real <= u;
    assert u < (q + 1) as real * d as real by {
      assert u < n as real + 1.0;
      assert n + 1 <= (q + 1) * d;
    }
    DivBetween(u, d as real, q as real, (q + 1) as real);
  }

  /** Bounds on a product bound the quotient. */
  lemma DivBetween(u: real, d: real, a: real, b: real)
    requires d > 0.0 && a * d <= u < b * d
    ensures a <= u / d < b
  {
    assert u / d * d == u;
  }

  /** On the real uptime the source sees, the fields are those of its whole
      seconds: `Math.floor(u % 60) == Math.floor(u) % 60` and likewise for
      hours and minutes. */
  lemma RealUptimeIsWholeSeconds(u: real)
    requires u >= 0.0
    ensures ClockOfReal(u) == ClockOf(u.Floor)
  {
    var n := u.Floor;
    FloorDivOfWholePart(u, 3600);
    FloorDivOfWholePart(u, 60);
    var h := n / 3600;
    var inHour := u - 3600.0 * h as real;
    assert inHour >= 0.0;
    assert inHour.Floor == n % 3600 by {
      assert n % 3600 == n - 3600 * h;
      assert (n - 3600 * h) as real <= inHour < (n - 3600 * h) as real + 1.0;
    }
    FloorDivOfWholePart(inHour, 60);
    var sec := u - 60.0 * (n / 60) as real;
    assert sec.Floor == n % 60 by {
      assert n % 60 == n - 60 * (n / 60);
      assert (n - 60 * (n / 60)) as real <= sec < (n - 60 * (n / 60)) as real + 1.0;
    }
  }
}

=== FILE: wrappers.dfy ===
/** Failure-carrying datatypes shared by every module of the model.

  - Option<T>: a value that may be absent (a JavaScript `null`/`undefined`).
  - Result<T, E>: the outcome of a call that either returns a value or throws.
  - Outcome<E>: the outcome of a call whose only interesting result is
    whether it threw, and with what message.
*/
module Wrappers {

  datatype Option<+T> = None | Some(value: T) {
    function GetOr(default: T): T {
      match this
      case Some(v) => v
      case None => default
    }
  }

  datatype Result<+T, +E> = Success(value: T) | Failure(error: E)

  datatype Outcome<+E> = Pass | Fail(error: E) {
    /** The error as an Option, `None` when the call succeeded. */
    function Thrown(): (r: Option<E>)
      ensures r.Some? <==> Fail?
      ensures Fail? ==> r.value == error
    {
      match this
      case Pass => None
      case Fail(e) => Some(e)
    }
  }
}
